=== FILE: README.md ===
# strudel.js reactive rule engine, modelled in Dafny

strudel.js lets a page declare "when condition C holds, apply these
attribute edits to the elements selector S matches; otherwise optionally
apply these other edits", and re-runs that rule whenever a watched
attribute changes. This project models the engine behind that:

- `StrudelAction` (`set`, `add`, `remove` of one attribute) and what an
  action list does to an element (module `Actions`);
- the document as a map from element handle to attribute map, with selector
  lookup as a function of the current document (module `Documents`), and the
  nested loops of `doActions`, both as a fold and as a `while` method;
- `StrudelReaction`: a selector, a positive and a negative action list and
  the `doNegative` flag (module `Reactions`);
- `StrudelQuery`: `reaction`, `else`, `set`, `add`, `remove` and `allReact`
  (module `Queries`), and the fluent chain as a script of calls that either
  builds a query or fails where strudel.js raises a TypeError (module `Builder`);
- the decision in the `watch` callback (module `Watch`);
- the `isAttr` and `hasAttr` helpers of the `Strudel` object (module `Facade`);
- two whole chains, built and run (module `Scenarios`).

Everything is immutable data and pure functions. Selector lookup is a
parameter `resolve: (Document, string) -> seq<ElemId>`; it is applied to
the document as it stands when each reaction runs, as `querySelectorAll`
is called afresh in `doActions`. A handle it returns that is not in the
document denotes no element and is skipped, both by the edits and by
`isAttr`/`hasAttr`, which read the first handle that is an element. Handles may repeat: every
action is idempotent, so a repeat changes nothing. The condition function
is evaluated once per `allReact`, so `AllReact` takes its value as a
`bool`; the `watch` callback takes the function and evaluates it on the
document it is called with.

Two facts about strudel.js that the model keeps:
- `add` stores `"true"` whether or not the attribute is present
  (strudel.js:197).
- the negation flag is per reaction (strudel.js:74, strudel.js:172).

## Model

| member | source | states |
|---|---|---|
| Actions.Apply | strudel.js:196-201 | `set` stores its value, `add` stores "true" even over an existing value, `remove` deletes and is a no-op when absent; no other attribute changes |
| Actions.ApplyIdempotent | strudel.js:196-201 | applying one action twice is the same as applying it once |
| Actions.LastWriteWins | strudel.js:192-206 | after an action list, each attribute holds what the last action naming it wrote (searched from the end), or its old value if none names it |
| Actions.AddThenSet | strudel.js:196-199 | `add(a)` then `set(a, v)` leaves `a` equal to `v` |
| Actions.ApplyAll | strudel.js:192-206 | one element's pass through an action list in order: an empty list changes nothing, attributes no action names keep their value |
| Reactions.NewReaction | strudel.js:168-173 | a new reaction has the selector, both lists empty and negation off |
| Reactions.AddPos | strudel.js:174-176 | appends the action to the positive list; selector, negative list and flag unchanged |
| Reactions.AddNeg | strudel.js:178-180 | appends the action to the negative list; selector, positive list and flag unchanged |
| Reactions.DoPositive | strudel.js:182-184 | matched elements get the positive list in order; other elements untouched |
| Reactions.DoNegative | strudel.js:186-188 | matched elements get the negative list in order; other elements untouched |
| Queries.NewQuery | strudel.js:5-7 | a new query has no reaction and its `allReact` changes nothing |
| Queries.LastReaction | strudel.js:64-66 | the reactions are the earlier ones followed by the returned one |
| Queries.ReactOne | strudel.js:153-157 | one reaction under one condition value: positive list when true, negative list when false with negation on, no change otherwise |
| Builder.Step | strudel.js:102-144 | one chained call fails exactly when it is not `reaction(...)` and there is no reaction yet; after a successful call a reaction exists |
| Documents.Pass | strudel.js:194-205 | one action over the matched elements: each matched element gets the action, others are untouched, no element appears or disappears, repeated handles change nothing |
| Documents.Run | strudel.js:192-206 | action-by-action over all matched elements equals each matched element's own sequential application of the whole list; other elements untouched |
| Documents.RunLoop | strudel.js:190-207 | the nested `for` loops compute the same document as `Run` |
| Documents.RunNoEffect | strudel.js:191-206 | with no matched element, or no action, the document is unchanged |
| Reactions.DoActions | strudel.js:190-207 | fresh resolution against the current document; matched elements get the list in order, the rest are untouched, an empty match changes nothing |
| Queries.AddReaction | strudel.js:102-107 | appends exactly one reaction with the selector, empty lists and negation off; earlier reactions unchanged |
| Queries.Else | strudel.js:72-76 | turns negation on for the last reaction only; its selector and lists and all earlier reactions unchanged |
| Queries.ElseIdempotent | strudel.js:72-76 | calling `else()` twice is calling it once |
| Queries.Route | strudel.js:109-144 | appends the action to the last reaction's positive list while negation is off, to its negative list once on; the other list, the flag, the selector and earlier reactions unchanged |
| Queries.Set | strudel.js:109-119 | appends `set(attribute, value)` to the list the last reaction currently fills (negative after `else()`, positive before); the other list, the flag and earlier reactions unchanged |
| Queries.Add | strudel.js:121-131 | appends `add(attribute)`, with the placeholder value, to the list the last reaction currently fills; the other list, the flag and earlier reactions unchanged |
| Queries.Remove | strudel.js:134-144 | appends `remove(attribute)`, with the placeholder value, to the list the last reaction currently fills; the other list, the flag and earlier reactions unchanged |
| Queries.RunReactions | strudel.js:151-158 | running the reactions adds and removes no element |
| Queries.AllReact | strudel.js:149-159 | no element appears or disappears; with no reactions the document is unchanged |
| Queries.AllReactSingle | strudel.js:149-159 | a one-reaction query runs that reaction's positive list when true, its negative list when false with negation on, nothing otherwise |
| Queries.RunReactionsAppend | strudel.js:151-158 | reactions run in insertion order: running a concatenation is running the first part, then the second on its result |
| Queries.FalseRunsOnlyNegated | strudel.js:153-157 | with the condition false the result is that of running only the reactions with negation on |
| Queries.FalseWithoutElseIsNoOp | strudel.js:153-157 | with the condition false and no `else()` on any reaction, the document is unchanged |
| Queries.TrueIgnoresNegative | strudel.js:153-154 | with the condition true, negative lists and flags have no effect on the result |
| Queries.FalseIgnoresPositive | strudel.js:155-157 | with the condition false, positive lists have no effect on the result |
| Queries.UnmentionedAttributeUnchanged | strudel.js:149-159 | an attribute that no action of any reaction names keeps its value on every element |
| Builder.Build | strudel.js:64-66 | a chain that got past its first call has a last reaction to work on |
| Builder.BuildSucceeds | strudel.js:64-66 | a non-empty chain (a strudel.js chain with its `watch` calls removed) fails (the TypeError on the `undefined` that `getLastReaction()` returns) exactly when it does not start with `reaction(...)`; the empty chain succeeds |
| Builder.BuildSegment | strudel.js:102-144 | `reaction(s)` followed by other calls appends one reaction: calls before the first `else()` fill its positive list, calls after it the negative list, negation on iff `else()` was called |
| Builder.BuildOne | strudel.js:102-144 | a chain that starts with `reaction(s)` and calls `reaction` nowhere else builds exactly the one reaction `Segment` describes |
| Builder.StepExtends | strudel.js:102-144 | each chained call only appends reactions or appends to the last reaction's lists, and never turns negation off |
| Builder.BuildExtends | strudel.js:102-144 | the same append-only relation holds between any chain and any continuation of it |
| Watch.Callback | strudel.js:79-87 | `allReact` runs at most once per batch, exactly once iff some record is an attribute change of the watched name, and then with the condition evaluated on the current document |
| Facade.First | strudel.js:10 | the first resolved handle that is an element of the document, every handle before it being no element; `None` exactly when no resolved handle is an element |
| Facade.IsAttr | strudel.js:9-12 | fails when the selector matches no element; otherwise true iff the first matched element has the attribute with exactly that value |
| Facade.HasAttr | strudel.js:14-17 | fails when the selector matches no element; otherwise true iff the first matched element has the attribute |
| Facade.IsAttrImpliesHasAttr | strudel.js:9-17 | an attribute equal to some value is present |
| Facade.IsAttrAfterRun | strudel.js:9-12 | after an action list ran over the element `isAttr` reads, it sees the value written by the last action naming the attribute |
| Scenarios.SetRoleWhenTrue | strudel.js:149-159 | `reaction(s).set("role","button")` with the condition true gives every matched element `role="button"` and leaves other elements' `role` alone |
| Scenarios.RemoveHiddenWhenFalse | strudel.js:149-159 | `reaction(s).else().remove("hidden")` with the condition false leaves no matched element with `hidden` |

## Left out

- Selector matching and element traversal (`querySelectorAll`, strudel.js:10, strudel.js:191): an abstract `Resolver` parameter.
- Attribute-name normalisation and name validation by the host (`setAttribute` lower-cases names on HTML elements and throws on invalid names): host behaviour, not part of the engine.
- `MutationObserver` construction, subscription and the `observers` list (strudel.js:89-97): host event plumbing; only the callback's decision is modelled, and `watch` itself has no counterpart: `Builder`'s chains are strudel.js chains with their `watch` calls removed, which changes no reaction since `watch` touches none (strudel.js:78-100).
- The condition function as a stored field of the query: `AllReact` receives its one evaluation.
- `clickPress` (strudel.js:29-49): event-listener wiring and `DOMContentLoaded`.
- `isStyle` (strudel.js:24-27): needs `getComputedStyle`, a host capability.
- `hasClass` (strudel.js:19-22): needs the `classList` API.
- The diagnostic for an unknown action type (strudel.js:202-203): the action kind is a closed datatype, so the branch cannot occur.
- The global `strudel` object and its `window` export (strudel.js:222-223).
- Facade.IsAttr: the model restricts `value` to strings and reads `==` as "present and equal". In strudel.js `value` can be any JavaScript value and `==` coerces, so the results differ for non-string values, for example: `isAttr(sel, attr)` with no value compares `null` with `undefined` and is true exactly when the attribute is absent; `isAttr(sel, "tabindex", 0)` is true when the stored value is `"0"` and also when it is `""`; `isAttr(sel, a, true)` is false after `add(a)`, because the stored `"true"` is not `== true`, while a stored `"1"` is.
- Queries.Set: `value` is the string `setAttribute` stores. In strudel.js a `StrudelAction`'s value is any JavaScript value (strudel.js:214) and `setAttribute` converts it to a string, so `set("x")` stores `"undefined"` and `set("x", 1)` stores `"1"`; the model takes that string directly.
- An invalid selector: `querySelectorAll` raises a SyntaxError inside `doActions` (strudel.js:191), which aborts `allReact` after earlier reactions have already written, leaving the change partly applied. The `Resolver` of the model is total.
- A throwing condition function (strudel.js:150), for example one built on `isAttr` over a selector that matches nothing (which `Facade` models as `None`): it aborts `allReact` and the watch callback. The model's `condition: Document -> bool` and `AllReact`'s `bool` are total.
- Re-entrant evaluation (an action writing the watched attribute, so the host calls the callback again): the model covers one callback call; the host's batching and queueing are not modelled.
- strudel-dev.js: an earlier, defective draft of the same design; it is not part of this model.

=== FILE: actions.dfy ===
/** `StrudelAction` and what one action list does to one element's
    attributes (strudel.js, `StrudelAction` and the body of `doActions`). */
module Actions {
  import opened Wrappers

  /** The action kinds. The type is closed, so strudel.js's diagnostic for
      an unrecognised kind has no counterpart here. */
  datatype ActionType = SetType | AddType | RemoveType

  /** An attribute edit. `add` and `remove` carry a placeholder value. */
  datatype Action = Action(kind: ActionType, attribute: string, value: string)

  /** The value the builder stores in `add` and `remove` actions. */
  const Placeholder: string := "none"

  /** What `setAttribute(name, true)` stores: the boolean, stringified. */
  const AddedValue: string := "true"

  function SetAction(attribute: string, value: string): Action {
    Action(SetType, attribute, value)
  }

  function AddAction(attribute: string): Action {
    Action(AddType, attribute, Placeholder)
  }

  function RemoveAction(attribute: string): Action {
    Action(RemoveType, attribute, Placeholder)
  }

  /** The attributes of one element. */
  type Attrs = map<string, string>

  /** `getAttribute`: the value, or `None` for the host's `null`. */
  function Get(attrs: Attrs, name: string): Option<string> {
    if name in attrs then Some(attrs[name]) else None
  }

  /** The value an attribute holds right after `a` has been applied to it. */
  function Written(a: Action): Option<string> {
    match a.kind
    case SetType => Some(a.value)
    case AddType => Some(AddedValue)
    case RemoveType => None
  }

  /** One action on one element: `set` stores its value, `add` stores
      "true" whatever was there, `remove` deletes (a no-op when absent).
      No other attribute changes. */
  function Apply(a: Action, attrs: Attrs): (r: Attrs)
    ensures Get(r, a.attribute) == Written(a)
    ensures a.kind == RemoveType && a.attribute !in attrs ==> r == attrs
    ensures forall n :: n != a.attribute ==> Get(r, n) == Get(attrs, n)
  {
    match a.kind
    case SetType => attrs[a.attribute := a.value]
    case AddType => attrs[a.attribute := AddedValue]
    case RemoveType => attrs - {a.attribute}
  }

  /** Applying the same action twice is applying it once. */
  lemma ApplyIdempotent(a: Action, attrs: Attrs)
    ensures Apply(a, Apply(a, attrs)) == Apply(a, attrs)
  {
  }

  /** An action list applied to one element, in insertion order. An empty
      list changes nothing, and attributes no action names keep their value. */
  function ApplyAll(actions: seq<Action>, attrs: Attrs): (r: Attrs)
    ensures actions == [] ==> r == attrs
    ensures forall n :: !Named(actions, n) ==> Get(r, n) == Get(attrs, n)
    decreases |actions|
  {
    if actions == [] then attrs
    else
      assert forall n :: !Named(actions, n) ==> !Named(actions[1..], n) && actions[0].attribute != n by {
        forall n | !Named(actions, n)
          ensures !Named(actions[1..], n) && actions[0].attribute != n
        {
          assert forall i :: 0 <= i < |actions[1..]| ==> actions[1..][i] == actions[i + 1];
        }
      }
      ApplyAll(actions[1..], Apply(actions[0], attrs))
  }

  /** Some action of the list names attribute `name`. */
  predicate Named(actions: seq<Action>, name: string) {
    exists i :: 0 <= i < |actions| && actions[i].attribute == name
  }

  /** The last action of the list that names `name`, searched from the end. */
  function LastNaming(actions: seq<Action>, name: string): (r: Option<Action>)
    ensures r.None? <==> !Named(actions, name)
    ensures r.Some? ==> exists i :: 0 <= i < |actions| && actions[i] == r.value
                                   && actions[i].attribute == name
                                   && forall j :: i < j < |actions| ==> actions[j].attribute != name
    decreases |actions|
  {
    if actions == [] then None
    else if actions[|actions| - 1].attribute == name then
      Some(actions[|actions| - 1])
    else
      var r := LastNaming(actions[..|actions| - 1], name);
      assert forall i :: 0 <= i < |actions| - 1 ==> actions[..|actions| - 1][i] == actions[i];
      r
  }

  /** The final value of `name` after a list whose effect on it is decided
      by its last action naming it, or `prior` when none names it. */
  function AfterLast(actions: seq<Action>, name: string, prior: Option<string>): Option<string> {
    match LastNaming(actions, name)
    case None => prior
    case Some(a) => Written(a)
  }

  lemma {:induction false} LastNamingCons(a: Action, t: seq<Action>, name: string)
    ensures LastNaming([a] + t, name)
         == if LastNaming(t, name).Some? then LastNaming(t, name)
            else if a.attribute == name then Some(a) else None
    decreases |t|
  {
    var s := [a] + t;
    if t == [] {
      assert s[..|s| - 1] == [];
    } else {
      assert s[|s| - 1] == t[|t| - 1];
      assert s[..|s| - 1] == [a] + t[..|t| - 1];
      LastNamingCons(a, t[..|t| - 1], name);
    }
  }

  /** Last write wins: after an action list, each attribute holds what the
      last action naming it wrote, or its old value if no action names it. */
  lemma {:induction false} LastWriteWins(actions: seq<Action>, attrs: Attrs, name: string)
    ensures Get(ApplyAll(actions, attrs), name) == AfterLast(actions, name, Get(attrs, name))
    decreases |actions|
  {
    if actions != [] {
      var a, t := actions[0], actions[1..];
      assert actions == [a] + t;
      LastWriteWins(t, Apply(a, attrs), name);
      LastNamingCons(a, t, name);
    }
  }

  /** `add(a)` followed by `set(a, v)` leaves `a` equal to `v`. */
  lemma AddThenSet(attrs: Attrs, name: string, v: string)
    ensures Get(ApplyAll([AddAction(name), SetAction(name, v)], attrs), name) == Some(v)
  {
    LastWriteWins([AddAction(name), SetAction(name, v)], attrs, name);
  }
}

=== FILE: builder.dfy ===
/** The fluent chain `strudel.query(c).reaction(s).set(...).else()...` as a
    script of calls. A call that needs a last reaction when there is none
    fails: `getLastReaction()` returns `undefined` in strudel.js and reading
    `doNegative` from it raises a TypeError; here the whole chain yields
    `None`. A chain here is a strudel.js chain with its `watch` calls
    removed: `watch` may appear anywhere in a strudel.js chain
    (strudel.js:78-100) and touches no reaction, so it has no `Call`. */
module Builder {
  import opened Wrappers
  import opened Actions
  import opened Reactions
  import opened Queries

  datatype Call =
    | ReactionCall(selector: string)
    | ElseCall
    | SetCall(attribute: string, value: string)
    | AddCall(attribute: string)
    | RemoveCall(attribute: string)

  /** One chained call on a query. Only `reaction(...)` works on a query
      without reactions; after any successful call there is a reaction. */
  function Step(q: Query, c: Call): (r: Option<Query>)
    ensures r.None? <==> !c.ReactionCall? && !HasReaction(q)
    ensures r.Some? ==> HasReaction(r.value)
  {
    match c
    case ReactionCall(selector) => Some(AddReaction(q, selector))
    case ElseCall => if HasReaction(q) then Some(Else(q)) else None
    case SetCall(attribute, value) => if HasReaction(q) then Some(Set(q, attribute, value)) else None
    case AddCall(attribute) => if HasReaction(q) then Some(Add(q, attribute)) else None
    case RemoveCall(attribute) => if HasReaction(q) then Some(Remove(q, attribute)) else None
  }

  /** The chain, left to right, from `strudel.query(...)`. A chain that got
      past its first call has a reaction to work on. */
  function Build(calls: seq<Call>): (r: Option<Query>)
    ensures r.Some? && calls != [] ==> HasReaction(r.value)
    decreases |calls|
  {
    if calls == [] then Some(NewQuery())
    else
      match Build(calls[..|calls| - 1])
      case None => None
      case Some(q) => Step(q, calls[|calls| - 1])
  }

  /** A chain fails exactly when it does not start with `reaction(...)`. */
  lemma {:induction false} BuildSucceeds(calls: seq<Call>)
    ensures Build(calls).Some? <==> (calls == [] || calls[0].ReactionCall?)
    decreases |calls|
  {
    if |calls| == 1 {
      assert calls[..0] == [];
    } else if |calls| > 1 {
      var p := calls[..|calls| - 1];
      assert p[0] == calls[0];
      BuildSucceeds(p);
    }
  }

  // ---- Reference: the reaction one `reaction(...)` call and the calls after it produce

  /** The action an attribute call builds; `None` for the other calls. */
  function EditOf(c: Call): Option<Action> {
    match c
    case SetCall(attribute, value) => Some(SetAction(attribute, value))
    case AddCall(attribute) => Some(AddAction(attribute))
    case RemoveCall(attribute) => Some(RemoveAction(attribute))
    case _ => None
  }

  /** The actions the attribute calls of `s` build, in order. */
  function Edits(s: seq<Call>): seq<Action>
    decreases |s|
  {
    if s == [] then []
    else match EditOf(s[0])
      case Some(a) => [a] + Edits(s[1..])
      case None => Edits(s[1..])
  }

  /** The calls before the first `else()`. */
  function BeforeElse(s: seq<Call>): seq<Call>
    decreases |s|
  {
    if s == [] || s[0] == ElseCall then [] else [s[0]] + BeforeElse(s[1..])
  }

  /** The calls after the first `else()`; empty if there is none. */
  function AfterElse(s: seq<Call>): seq<Call>
    decreases |s|
  {
    if s == [] then [] else if s[0] == ElseCall then s[1..] else AfterElse(s[1..])
  }

  /** The reaction that `reaction(selector)` followed by the calls `s` (none
      of them `reaction`) leaves: attribute calls before the first `else()`
      fill the positive list, those after it the negative list, and
      negation is on iff `else()` was called. */
  function Segment(selector: string, s: seq<Call>): Reaction {
    Reaction(selector, Edits(BeforeElse(s)), Edits(AfterElse(s)), ElseCall in s)
  }

  lemma {:induction false} EditsSnoc(s: seq<Call>, c: Call)
    ensures Edits(s + [c]) == Edits(s) + Edits([c])
    decreases |s|
  {
    if s == [] {
      assert s + [c] == [c];
    } else {
      assert (s + [c])[1..] == s[1..] + [c];
      EditsSnoc(s[1..], c);
    }
  }

  lemma {:induction false} BeforeElseSnoc(s: seq<Call>, c: Call)
    ensures ElseCall in s ==> BeforeElse(s + [c]) == BeforeElse(s)
    ensures ElseCall !in s ==> BeforeElse(s) == s
    ensures ElseCall !in s ==> BeforeElse(s + [c]) == if c == ElseCall then s else s + [c]
    decreases |s|
  {
    if s == [] {
      assert s + [c] == [c];
      assert [c][1..] == [];
    } else {
      assert (s + [c])[1..] == s[1..] + [c];
      assert ElseCall in s <==> s[0] == ElseCall || ElseCall in s[1..];
      BeforeElseSnoc(s[1..], c);
      if s[0] != ElseCall {
        assert [s[0]] + s[1..] == s;
        assert [s[0]] + (s[1..] + [c]) == s + [c];
      }
    }
  }

  lemma {:induction false} AfterElseSnoc(s: seq<Call>, c: Call)
    ensures ElseCall in s ==> AfterElse(s + [c]) == AfterElse(s) + [c]
    ensures ElseCall !in s ==> AfterElse(s + [c]) == []
    decreases |s|
  {
    if s == [] {
      assert s + [c] == [c];
      assert [c][1..] == [];
    } else {
      assert (s + [c])[1..] == s[1..] + [c];
      assert ElseCall in s <==> s[0] == ElseCall || ElseCall in s[1..];
      AfterElseSnoc(s[1..], c);
    }
  }

  /** What a non-`reaction` call does to the reaction it lands on. */
  function Accept(r: Reaction, c: Call): Reaction {
    if c == ElseCall then r.(doNegative := true)
    else match EditOf(c)
      case Some(a) => if r.doNegative then AddNeg(r, a) else AddPos(r, a)
      case None => r
  }

  lemma SegmentSnoc(selector: string, s: seq<Call>, c: Call)
    requires !c.ReactionCall?
    ensures Segment(selector, s + [c]) == Accept(Segment(selector, s), c)
  {
    BeforeElseSnoc(s, c);
    AfterElseSnoc(s, c);
    EditsSnoc(BeforeElse(s), c);
    EditsSnoc(AfterElse(s), c);
    assert ElseCall in s + [c] <==> ElseCall in s || c == ElseCall;
    if ElseCall !in s {
      assert AfterElse(s) == [] by { AfterElseEmpty(s); }
    }
  }

  lemma {:induction false} AfterElseEmpty(s: seq<Call>)
    ensures ElseCall !in s ==> AfterElse(s) == []
    decreases |s|
  {
    if s != [] {
      assert ElseCall in s <==> s[0] == ElseCall || ElseCall in s[1..];
      AfterElseEmpty(s[1..]);
    }
  }

  lemma StepLands(rs: seq<Reaction>, r: Reaction, c: Call)
    requires !c.ReactionCall?
    ensures Step(Query(rs + [r]), c) == Some(Query(rs + [Accept(r, c)]))
  {
  }

  /** One more call on a chain is one more `Step` on what it built. */
  lemma BuildSnoc(calls: seq<Call>, c: Call)
    ensures Build(calls + [c]) == match Build(calls)
                                  case None => None
                                  case Some(q) => Step(q, c)
  {
    assert (calls + [c])[..|calls|] == calls;
  }

  /** Routing, end to end: `reaction(selector)` followed by calls that are
      not `reaction` appends exactly the reaction `Segment` describes to
      what the chain had built before it. */
  lemma {:induction false} BuildSegment(pre: seq<Call>, selector: string, s: seq<Call>)
    requires forall i :: 0 <= i < |s| ==> !s[i].ReactionCall?
    ensures Build(pre + [ReactionCall(selector)] + s)
         == match Build(pre)
            case None => None
            case Some(q) => Some(Query(q.reactions + [Segment(selector, s)]))
    decreases |s|
  {
    var head := pre + [ReactionCall(selector)];
    if s == [] {
      assert head + s == head;
      BuildSnoc(pre, ReactionCall(selector));
      assert Segment(selector, s) == NewReaction(selector);
    } else {
      var s', c := s[..|s| - 1], s[|s| - 1];
      assert s == s' + [c];
      assert head + s == (head + s') + [c];
      BuildSnoc(head + s', c);
      BuildSegment(pre, selector, s');
      SegmentSnoc(selector, s', c);
      match Build(pre)
      case None =>
      case Some(q) =>
        StepLands(q.reactions, Segment(selector, s'), c);
    }
  }

  /** A chain that starts with `reaction(selector)` and has no other
      `reaction` call builds the single reaction `Segment` describes. */
  lemma BuildOne(selector: string, s: seq<Call>)
    requires forall i :: 0 <= i < |s| ==> !s[i].ReactionCall?
    ensures Build([ReactionCall(selector)] + s) == Some(Query([Segment(selector, s)]))
  {
    var none: seq<Call> := [];
    assert none + [ReactionCall(selector)] == [ReactionCall(selector)];
    BuildSegment(none, selector, s);
    EmptyPrefix(Segment(selector, s));
  }

  /** The reactions of a new query, with one appended. */
  lemma EmptyPrefix(r: Reaction)
    ensures NewQuery().reactions + [r] == [r]
  {
  }

  lemma ExtendsReflexive(q: Query)
    ensures Extends(q, q)
  {
    if HasReaction(q) {
      var r := LastReaction(q);
      assert r.positive[..|r.positive|] == r.positive;
      assert r.negative[..|r.negative|] == r.negative;
    }
  }

  lemma ExtendsTransitive(a: Query, b: Query, c: Query)
    requires Extends(a, b) && Extends(b, c)
    ensures Extends(a, c)
  {
  }

  /** A query whose last reaction grew, all else equal, extends the old one. */
  lemma LastGrowsExtends(q: Query, q': Query)
    requires HasReaction(q) && HasReaction(q') && Earlier(q') == Earlier(q)
    requires Grows(LastReaction(q), LastReaction(q'))
    ensures Extends(q, q')
  {
    assert forall i :: 0 <= i < |q.reactions| - 1 ==> q'.reactions[i] == Earlier(q')[i];
  }

  lemma AddReactionExtends(q: Query, selector: string)
    ensures Extends(q, AddReaction(q, selector))
  {
    var q' := AddReaction(q, selector);
    if HasReaction(q) {
      var r := LastReaction(q);
      assert q'.reactions[|q.reactions| - 1] == Earlier(q')[|q.reactions| - 1] == r;
      assert forall i :: 0 <= i < |q.reactions| - 1 ==> q'.reactions[i] == Earlier(q')[i];
      assert r.positive[..|r.positive|] == r.positive;
      assert r.negative[..|r.negative|] == r.negative;
    }
  }

  lemma ElseExtends(q: Query)
    requires HasReaction(q)
    ensures Extends(q, Else(q))
  {
    var r := LastReaction(q);
    assert r.positive[..|r.positive|] == r.positive;
    assert r.negative[..|r.negative|] == r.negative;
    LastGrowsExtends(q, Else(q));
  }

  lemma RouteExtends(q: Query, a: Action)
    requires HasReaction(q)
    ensures Extends(q, Route(q, a))
  {
    var r, r' := LastReaction(q), LastReaction(Route(q, a));
    assert r'.positive[..|r.positive|] == r.positive;
    assert r'.negative[..|r.negative|] == r.negative;
    LastGrowsExtends(q, Route(q, a));
  }

  lemma StepExtends(q: Query, c: Call)
    requires Step(q, c).Some?
    ensures Extends(q, Step(q, c).value)
  {
    match c
    case ReactionCall(selector) => AddReactionExtends(q, selector);
    case ElseCall => ElseExtends(q);
    case SetCall(attribute, value) => RouteExtends(q, SetAction(attribute, value));
    case AddCall(attribute) => RouteExtends(q, AddAction(attribute));
    case RemoveCall(attribute) => RouteExtends(q, RemoveAction(attribute));
  }

  lemma ExtendedStep(q: Query, mid: Query, c: Call)
    requires Extends(q, mid) && Step(mid, c).Some?
    ensures Extends(q, Step(mid, c).value)
  {
    StepExtends(mid, c);
    ExtendsTransitive(q, mid, Step(mid, c).value);
  }

  lemma BuildExtendsStep(calls: seq<Call>, c: Call, all: seq<Call>, q: Query)
    requires all == calls + [c]
    requires Build(calls).Some? && Extends(q, Build(calls).value)
    requires Build(all).Some?
    ensures Extends(q, Build(all).value)
  {
    BuildSnoc(calls, c);
    ExtendedStep(q, Build(calls).value, c);
  }

  /** Append-only: whatever a chain has built, calling more on it only
      appends reactions and appends to the last reaction's lists. */
  lemma {:induction false} BuildExtends(pre: seq<Call>, more: seq<Call>)
    requires Build(pre + more).Some?
    ensures Build(pre).Some? && Extends(Build(pre).value, Build(pre + more).value)
    decreases |more|
  {
    if more == [] {
      assert pre + more == pre;
      ExtendsReflexive(Build(pre).value);
    } else {
      var m', c := more[..|more| - 1], more[|more| - 1];
      assert pre + more == (pre + m') + [c];
      BuildSnoc(pre + m', c);
      BuildExtends(pre, m');
      BuildExtendsStep(pre + m', c, pre + more, Build(pre).value);
    }
  }
}

=== FILE: documents.dfy ===
/** The host document, abstracted: element handles mapped to their
    attributes, and selector lookup as a function of the current document. */
module Documents {
  import opened Actions

  /** An element handle. */
  type ElemId = nat

  type Document = map<ElemId, Attrs>

  /** `querySelectorAll`: the elements a selector matches in the given
      document, in document order. A handle that is not a key of the
      document denotes no element and is skipped by every edit. */
  type Resolver = (Document, string) -> seq<ElemId>

  /** One action applied to each element of `elems` in turn: the inner loop
      of `doActions`. */
  function Pass(a: Action, elems: seq<ElemId>, doc: Document): (r: Document)
    ensures r.Keys == doc.Keys
    ensures forall x :: x in doc ==> r[x] == if x in elems then Apply(a, doc[x]) else doc[x]
    decreases |elems|
  {
    if elems == [] then doc
    else
      var e := elems[0];
      assert forall x :: x in elems <==> x == e || x in elems[1..];
      if e in doc then
        ApplyIdempotent(a, doc[e]);
        Pass(a, elems[1..], doc[e := Apply(a, doc[e])])
      else
        Pass(a, elems[1..], doc)
  }

  /** Every action over every element, action by action: the outer loop of
      `doActions`. Its result is each element's own sequential application
      of the whole list; other elements keep their attributes. */
  function Run(actions: seq<Action>, elems: seq<ElemId>, doc: Document): (r: Document)
    ensures r.Keys == doc.Keys
    ensures forall x :: x in doc ==> r[x] == if x in elems then ApplyAll(actions, doc[x]) else doc[x]
    decreases |actions|
  {
    if actions == [] then doc else Run(actions[1..], elems, Pass(actions[0], elems, doc))
  }

  /** The nested loops of `doActions`, written as loops. */
  method RunLoop(actions: seq<Action>, elems: seq<ElemId>, doc: Document) returns (d: Document)
    ensures d == Run(actions, elems, doc)
  {
    d := doc;
    var i := 0;
    while i < |actions|
      invariant 0 <= i <= |actions|
      invariant Run(actions[i..], elems, d) == Run(actions, elems, doc)
    {
      var a := actions[i];
      ghost var before := d;
      var j := 0;
      while j < |elems|
        invariant 0 <= j <= |elems|
        invariant Pass(a, elems[j..], d) == Pass(a, elems, before)
      {
        var e := elems[j];
        assert elems[j..][1..] == elems[j + 1..];
        if e in d {
          d := d[e := Apply(a, d[e])];
        }
        j := j + 1;
      }
      assert actions[i..][1..] == actions[i + 1..];
      i := i + 1;
    }
  }

  /** With no element matched, or no action given, nothing changes. */
  lemma RunNoEffect(actions: seq<Action>, elems: seq<ElemId>, doc: Document)
    requires elems == [] || actions == []
    ensures Run(actions, elems, doc) == doc
  {
  }
}

=== FILE: facade.dfy ===
/** The condition helpers of the `Strudel` object that read attributes:
    `isAttr` and `hasAttr`. Each reads the first element the selector
    matches; with no match `querySelectorAll(selector)[0]` is `undefined`
    and reading from it raises a TypeError, here the result is `None`.
    A handle that is not an element of the document is skipped here as it
    is by every edit, so a selector names the same elements for both. */
module Facade {
  import opened Wrappers
  import opened Actions
  import opened Documents

  /** `querySelectorAll(selector)[0]`: the first handle the selector
      resolves to that is an element of the document, skipping handles that
      are not, as every edit does. `None` when there is no such handle. */
  function First(doc: Document, resolve: Resolver, selector: string): (r: Option<ElemId>)
    ensures r.None? <==> forall i :: 0 <= i < |resolve(doc, selector)| ==> resolve(doc, selector)[i] !in doc
    ensures r.Some? ==> r.value in doc
                        && exists i :: 0 <= i < |resolve(doc, selector)| && resolve(doc, selector)[i] == r.value
                             && forall j :: 0 <= j < i ==> resolve(doc, selector)[j] !in doc
  {
    FirstIn(doc, resolve(doc, selector))
  }

  function FirstIn(doc: Document, elems: seq<ElemId>): (r: Option<ElemId>)
    ensures r.None? <==> forall i :: 0 <= i < |elems| ==> elems[i] !in doc
    ensures r.Some? ==> r.value in doc
                        && exists i :: 0 <= i < |elems| && elems[i] == r.value
                             && forall j :: 0 <= j < i ==> elems[j] !in doc
    decreases |elems|
  {
    if elems == [] then None
    else if elems[0] in doc then Some(elems[0])
    else
      var r := FirstIn(doc, elems[1..]);
      assert forall i :: 0 <= i < |elems[1..]| ==> elems[1..][i] == elems[i + 1];
      if r.Some? then
        var i :| 0 <= i < |elems[1..]| && elems[1..][i] == r.value
                 && forall j :: 0 <= j < i ==> elems[1..][j] !in doc;
        assert elems[i + 1] == r.value && forall j :: 0 <= j < i + 1 ==> elems[j] !in doc;
        r
      else r
  }

  /** `isAttr`: the first match carries `attribute` with exactly `value`. */
  function IsAttr(doc: Document, resolve: Resolver, selector: string, attribute: string, value: string)
    : (r: Option<bool>)
    ensures r.None? <==> First(doc, resolve, selector).None?
    ensures r.Some? ==> (r.value <==> attribute in doc[First(doc, resolve, selector).value]
                                      && doc[First(doc, resolve, selector).value][attribute] == value)
  {
    match First(doc, resolve, selector)
    case None => None
    case Some(e) => Some(Get(doc[e], attribute) == Some(value))
  }

  /** `hasAttr`: the first match carries `attribute`, whatever its value. */
  function HasAttr(doc: Document, resolve: Resolver, selector: string, attribute: string): (r: Option<bool>)
    ensures r.None? <==> First(doc, resolve, selector).None?
    ensures r.Some? ==> (r.value <==> attribute in doc[First(doc, resolve, selector).value])
  {
    match First(doc, resolve, selector)
    case None => None
    case Some(e) => Some(Get(doc[e], attribute).Some?)
  }

  /** An attribute equal to some value is present. */
  lemma IsAttrImpliesHasAttr(doc: Document, resolve: Resolver, selector: string, attribute: string,
                             value: string)
    requires IsAttr(doc, resolve, selector, attribute, value) == Some(true)
    ensures HasAttr(doc, resolve, selector, attribute) == Some(true)
  {
  }

  /** After an action list has run over `elems`, `isAttr` on an element
      among them sees the value the last action naming the attribute wrote,
      or the old value if none names it. */
  lemma IsAttrAfterRun(actions: seq<Action>, elems: seq<ElemId>, doc: Document, after: Document,
                       resolve: Resolver, selector: string, e: ElemId, attribute: string, value: string)
    requires after == Run(actions, elems, doc)
    requires First(after, resolve, selector) == Some(e) && e in elems
    ensures IsAttr(after, resolve, selector, attribute, value)
              == Some(AfterLast(actions, attribute, Get(doc[e], attribute)) == Some(value))
  {
    LastWriteWins(actions, doc[e], attribute);
  }
}

=== FILE: queries.dfy ===
/** `StrudelQuery`: the ordered reactions, the fluent calls that build them
    and `allReact`, which runs them. The condition function is not stored:
    `AllReact` receives its single evaluation. */
module Queries {
  import opened Actions
  import opened Documents
  import opened Reactions

  datatype Query = Query(reactions: seq<Reaction>)

  /** `strudel.query(...)`: a query with no reactions, whose `allReact`
      changes nothing. */
  function NewQuery(): (q: Query)
    ensures !HasReaction(q)
    ensures forall cond, doc, resolve :: AllReact(q, cond, doc, resolve) == doc
  {
    Query([])
  }

  /** `getLastReaction` indexes `length - 1`, so every call that uses it
      needs a reaction to exist. */
  predicate HasReaction(q: Query) {
    |q.reactions| > 0
  }

  /** `getLastReaction`: the reaction added most recently. */
  function LastReaction(q: Query): (r: Reaction)
    requires HasReaction(q)
    ensures q.reactions == Earlier(q) + [r]
  {
    q.reactions[|q.reactions| - 1]
  }

  /** The reactions before the last one. */
  function Earlier(q: Query): seq<Reaction>
    requires HasReaction(q)
  {
    q.reactions[..|q.reactions| - 1]
  }

  /** `reaction(selector)`: one new reaction at the end, empty and with
      negation off; the earlier ones are kept as they were. */
  function AddReaction(q: Query, selector: string): (q': Query)
    ensures HasReaction(q') && |q'.reactions| == |q.reactions| + 1
    ensures Earlier(q') == q.reactions
    ensures LastReaction(q').selector == selector
    ensures LastReaction(q').positive == [] && LastReaction(q').negative == []
    ensures !LastReaction(q').doNegative
  {
    Query(q.reactions + [NewReaction(selector)])
  }

  /** `else()`: turns negation on for the last reaction and changes nothing
      else. */
  function Else(q: Query): (q': Query)
    requires HasReaction(q)
    ensures HasReaction(q') && |q'.reactions| == |q.reactions|
    ensures Earlier(q') == Earlier(q)
    ensures LastReaction(q').doNegative
    ensures LastReaction(q').selector == LastReaction(q).selector
    ensures LastReaction(q').positive == LastReaction(q).positive
    ensures LastReaction(q').negative == LastReaction(q).negative
  {
    Query(Earlier(q) + [LastReaction(q).(doNegative := true)])
  }

  lemma ElseIdempotent(q: Query)
    requires HasReaction(q)
    ensures Else(Else(q)) == Else(q)
  {
  }

  /** The common body of `set`, `add` and `remove`: the action goes to the
      last reaction's positive list while its negation is off and to its
      negative list once it is on. The other list, the flag, the selector
      and all earlier reactions are unchanged. */
  function Route(q: Query, a: Action): (q': Query)
    requires HasReaction(q)
    ensures HasReaction(q') && |q'.reactions| == |q.reactions|
    ensures Earlier(q') == Earlier(q)
    ensures var before, after := LastReaction(q), LastReaction(q');
            && after.selector == before.selector
            && after.doNegative == before.doNegative
            && (if before.doNegative
                then after.negative == before.negative + [a] && after.positive == before.positive
                else after.positive == before.positive + [a] && after.negative == before.negative)
  {
    var last := LastReaction(q);
    var updated := if !last.doNegative then AddPos(last, a) else AddNeg(last, a);
    Query(Earlier(q) + [updated])
  }

  function Set(q: Query, attribute: string, value: string): (q': Query)
    requires HasReaction(q)
    ensures HasReaction(q') && Earlier(q') == Earlier(q)
    ensures Active(LastReaction(q')) == Active(LastReaction(q)) + [Action(SetType, attribute, value)]
    ensures Inactive(LastReaction(q')) == Inactive(LastReaction(q))
    ensures LastReaction(q').doNegative == LastReaction(q).doNegative
    ensures LastReaction(q').selector == LastReaction(q).selector
  {
    Route(q, SetAction(attribute, value))
  }

  function Add(q: Query, attribute: string): (q': Query)
    requires HasReaction(q)
    ensures HasReaction(q') && Earlier(q') == Earlier(q)
    ensures Active(LastReaction(q')) == Active(LastReaction(q)) + [Action(AddType, attribute, Placeholder)]
    ensures Inactive(LastReaction(q')) == Inactive(LastReaction(q))
    ensures LastReaction(q').doNegative == LastReaction(q).doNegative
    ensures LastReaction(q').selector == LastReaction(q).selector
  {
    Route(q, AddAction(attribute))
  }

  function Remove(q: Query, attribute: string): (q': Query)
    requires HasReaction(q)
    ensures HasReaction(q') && Earlier(q') == Earlier(q)
    ensures Active(LastReaction(q')) == Active(LastReaction(q)) + [Action(RemoveType, attribute, Placeholder)]
    ensures Inactive(LastReaction(q')) == Inactive(LastReaction(q))
    ensures LastReaction(q').doNegative == LastReaction(q).doNegative
    ensures LastReaction(q').selector == LastReaction(q).selector
  {
    Route(q, RemoveAction(attribute))
  }

  /** Builder calls only append: every reaction of `q` reappears in `q'`
      unchanged, except the last, which may only have grown. */
  predicate Extends(q: Query, q': Query) {
    && |q.reactions| <= |q'.reactions|
    && (forall i :: 0 <= i < |q.reactions| - 1 ==> q'.reactions[i] == q.reactions[i])
    && (HasReaction(q) ==> Grows(LastReaction(q), q'.reactions[|q.reactions| - 1]))
  }

  /** The branch one reaction takes under one evaluation of the condition:
      its positive list when true, its negative list when false and
      negation is on, nothing otherwise. */
  function ReactOne(r: Reaction, cond: bool, doc: Document, resolve: Resolver): (d: Document)
    ensures d.Keys == doc.Keys
    ensures cond ==> forall x :: x in doc ==>
              d[x] == if x in resolve(doc, r.selector) then ApplyAll(r.positive, doc[x]) else doc[x]
    ensures !cond && r.doNegative ==> forall x :: x in doc ==>
              d[x] == if x in resolve(doc, r.selector) then ApplyAll(r.negative, doc[x]) else doc[x]
    ensures !cond && !r.doNegative ==> d == doc
  {
    if cond then DoPositive(r, doc, resolve)
    else if r.doNegative then DoNegative(r, doc, resolve)
    else doc
  }

  /** The loop of `allReact`, in insertion order, every reaction seeing the
      same condition value. Only attributes change: no element appears or
      disappears. */
  function RunReactions(rs: seq<Reaction>, cond: bool, doc: Document, resolve: Resolver): (d: Document)
    ensures d.Keys == doc.Keys
    decreases |rs|
  {
    if rs == [] then doc else RunReactions(rs[1..], cond, ReactOne(rs[0], cond, doc, resolve), resolve)
  }

  /** `allReact`, given the value of the condition. With no reactions the
      document is unchanged. */
  function AllReact(q: Query, cond: bool, doc: Document, resolve: Resolver): (d: Document)
    ensures d.Keys == doc.Keys
    ensures q.reactions == [] ==> d == doc
  {
    RunReactions(q.reactions, cond, doc, resolve)
  }

  /** A query with one reaction runs that reaction's branch once. */
  lemma AllReactSingle(r: Reaction, cond: bool, doc: Document, resolve: Resolver)
    ensures AllReact(Query([r]), cond, doc, resolve) == ReactOne(r, cond, doc, resolve)
  {
    assert [r][1..] == [];
    var mid := ReactOne(r, cond, doc, resolve);
    assert RunReactions([r], cond, doc, resolve) == RunReactions([], cond, mid, resolve);
  }

  /** Running a concatenation runs the first part, then the second. */
  lemma {:induction false} RunReactionsAppend(a: seq<Reaction>, b: seq<Reaction>, cond: bool,
                                              doc: Document, resolve: Resolver)
    ensures RunReactions(a + b, cond, doc, resolve)
         == RunReactions(b, cond, RunReactions(a, cond, doc, resolve), resolve)
    decreases |a|
  {
    if a == [] {
      assert a + b == b;
    } else {
      assert (a + b)[1..] == a[1..] + b;
      RunReactionsAppend(a[1..], b, cond, ReactOne(a[0], cond, doc, resolve), resolve);
    }
  }

  /** The reactions whose negation is on, in order. */
  function Negated(rs: seq<Reaction>): (ns: seq<Reaction>)
    decreases |rs|
  {
    if rs == [] then []
    else if rs[0].doNegative then [rs[0]] + Negated(rs[1..])
    else Negated(rs[1..])
  }

  /** With the condition false, only reactions with negation on do
      anything: the result is that of running just those. */
  lemma {:induction false} FalseRunsOnlyNegated(rs: seq<Reaction>, doc: Document, resolve: Resolver)
    ensures RunReactions(rs, false, doc, resolve) == RunReactions(Negated(rs), false, doc, resolve)
    decreases |rs|
  {
    if rs != [] {
      if rs[0].doNegative {
        FalseRunsOnlyNegated(rs[1..], DoNegative(rs[0], doc, resolve), resolve);
        assert ([rs[0]] + Negated(rs[1..]))[1..] == Negated(rs[1..]);
      } else {
        FalseRunsOnlyNegated(rs[1..], doc, resolve);
      }
    }
  }

  /** With the condition false and no `else` anywhere, nothing changes. */
  lemma FalseWithoutElseIsNoOp(q: Query, doc: Document, resolve: Resolver)
    requires forall i :: 0 <= i < |q.reactions| ==> !q.reactions[i].doNegative
    ensures AllReact(q, false, doc, resolve) == doc
  {
    NegatedNone(q.reactions);
    FalseRunsOnlyNegated(q.reactions, doc, resolve);
  }

  lemma {:induction false} NegatedNone(rs: seq<Reaction>)
    requires forall i :: 0 <= i < |rs| ==> !rs[i].doNegative
    ensures Negated(rs) == []
    decreases |rs|
  {
    if rs != [] {
      NegatedNone(rs[1..]);
    }
  }

  /** Two reaction lists that agree on selectors and positive lists. */
  predicate SamePositive(rs: seq<Reaction>, rs': seq<Reaction>) {
    && |rs| == |rs'|
    && forall i :: 0 <= i < |rs| ==> rs[i].selector == rs'[i].selector && rs[i].positive == rs'[i].positive
  }

  /** Two reaction lists that agree on selectors, negative lists and flags. */
  predicate SameNegative(rs: seq<Reaction>, rs': seq<Reaction>) {
    && |rs| == |rs'|
    && forall i :: 0 <= i < |rs| ==>
         rs[i].selector == rs'[i].selector && rs[i].negative == rs'[i].negative
         && rs[i].doNegative == rs'[i].doNegative
  }

  /** With the condition true, negative lists and flags play no part. */
  lemma {:induction false} TrueIgnoresNegative(rs: seq<Reaction>, rs': seq<Reaction>,
                                               doc: Document, resolve: Resolver)
    requires SamePositive(rs, rs')
    ensures RunReactions(rs, true, doc, resolve) == RunReactions(rs', true, doc, resolve)
    decreases |rs|
  {
    if rs != [] {
      assert SamePositive(rs[1..], rs'[1..]);
      TrueIgnoresNegative(rs[1..], rs'[1..], ReactOne(rs[0], true, doc, resolve), resolve);
    }
  }

  /** With the condition false, positive lists play no part. */
  lemma {:induction false} FalseIgnoresPositive(rs: seq<Reaction>, rs': seq<Reaction>,
                                                doc: Document, resolve: Resolver)
    requires SameNegative(rs, rs')
    ensures RunReactions(rs, false, doc, resolve) == RunReactions(rs', false, doc, resolve)
    decreases |rs|
  {
    if rs != [] {
      assert SameNegative(rs[1..], rs'[1..]);
      FalseIgnoresPositive(rs[1..], rs'[1..], ReactOne(rs[0], false, doc, resolve), resolve);
    }
  }

  /** Some action of some reaction, in either list, names `name`. */
  predicate Mentions(rs: seq<Reaction>, name: string) {
    exists i :: 0 <= i < |rs| && (Named(rs[i].positive, name) || Named(rs[i].negative, name))
  }

  /** An attribute no action names keeps its value on every element,
      whatever the condition. */
  lemma {:induction false} UnmentionedAttributeUnchanged(rs: seq<Reaction>, cond: bool, doc: Document,
                                                         resolve: Resolver, name: string)
    requires !Mentions(rs, name)
    ensures var d := RunReactions(rs, cond, doc, resolve);
            forall x :: x in doc ==> Get(d[x], name) == Get(doc[x], name)
    decreases |rs|
  {
    if rs != [] {
      var r := rs[0];
      var mid := ReactOne(r, cond, doc, resolve);
      assert !Named(r.positive, name) && !Named(r.negative, name) by {
        assert 0 < |rs|;
      }
      assert forall x :: x in doc ==> Get(mid[x], name) == Get(doc[x], name);
      assert !Mentions(rs[1..], name) by {
        forall i | 0 <= i < |rs[1..]|
          ensures !Named(rs[1..][i].positive, name) && !Named(rs[1..][i].negative, name)
        {
          assert rs[1..][i] == rs[i + 1];
        }
      }
      UnmentionedAttributeUnchanged(rs[1..], cond, mid, resolve, name);
    }
  }
}

=== FILE: reactions.dfy ===
/** `StrudelReaction`: a selector with a positive and a negative action
    list and the flag that enables the negative list. */
module Reactions {
  import opened Actions
  import opened Documents

  datatype Reaction = Reaction(selector: string, positive: seq<Action>, negative: seq<Action>,
                               doNegative: bool)

  /** A fresh reaction: both lists empty, negation off. */
  function NewReaction(selector: string): (r: Reaction)
    ensures r.selector == selector && !r.doNegative
    ensures Active(r) == [] && Inactive(r) == []
  {
    Reaction(selector, [], [], false)
  }

  /** The list builder calls currently fill: the negative one once
      negation is on, the positive one before. */
  function Active(r: Reaction): seq<Action> {
    if r.doNegative then r.negative else r.positive
  }

  /** The list builder calls currently leave alone. */
  function Inactive(r: Reaction): seq<Action> {
    if r.doNegative then r.positive else r.negative
  }

  /** `addPos`: `a` goes at the end of the positive list; nothing else changes. */
  function AddPos(r: Reaction, a: Action): (r': Reaction)
    ensures Grows(r, r') && r'.positive == r.positive + [a] && r'.negative == r.negative
    ensures r'.doNegative == r.doNegative
  {
    r.(positive := r.positive + [a])
  }

  /** `addNeg`: `a` goes at the end of the negative list; nothing else changes. */
  function AddNeg(r: Reaction, a: Action): (r': Reaction)
    ensures Grows(r, r') && r'.negative == r.negative + [a] && r'.positive == r.positive
    ensures r'.doNegative == r.doNegative
  {
    r.(negative := r.negative + [a])
  }

  /** `doActions`: resolve the selector against the document as it is now,
      then apply the list to the matched elements. Matched elements end with
      their own sequential application of the list, every other element is
      untouched, and an empty match changes nothing. */
  function DoActions(r: Reaction, actions: seq<Action>, doc: Document, resolve: Resolver): (d: Document)
    ensures d.Keys == doc.Keys
    ensures forall x :: x in doc ==>
              d[x] == if x in resolve(doc, r.selector) then ApplyAll(actions, doc[x]) else doc[x]
    ensures resolve(doc, r.selector) == [] ==> d == doc
  {
    var elems := resolve(doc, r.selector);
    var d := Run(actions, elems, doc);
    assert elems == [] ==> d == doc by {
      if elems == [] { RunNoEffect(actions, elems, doc); }
    }
    d
  }

  /** `doPositiveActions`: the positive list over the current matches. */
  function DoPositive(r: Reaction, doc: Document, resolve: Resolver): (d: Document)
    ensures d.Keys == doc.Keys
    ensures forall x :: x in doc ==>
              d[x] == if x in resolve(doc, r.selector) then ApplyAll(r.positive, doc[x]) else doc[x]
  {
    DoActions(r, r.positive, doc, resolve)
  }

  /** `doNegativeActions`: the negative list over the current matches. */
  function DoNegative(r: Reaction, doc: Document, resolve: Resolver): (d: Document)
    ensures d.Keys == doc.Keys
    ensures forall x :: x in doc ==>
              d[x] == if x in resolve(doc, r.selector) then ApplyAll(r.negative, doc[x]) else doc[x]
  {
    DoActions(r, r.negative, doc, resolve)
  }

  /** A reaction grows only by appending: same selector, both lists
      extended at the end, and negation, once on, stays on. */
  predicate Grows(r: Reaction, r': Reaction) {
    && r'.selector == r.selector
    && |r.positive| <= |r'.positive| && r'.positive[..|r.positive|] == r.positive
    && |r.negative| <= |r'.negative| && r'.negative[..|r.negative|] == r.negative
    && (r.doNegative ==> r'.doNegative)
  }
}

=== FILE: scenarios.dfy ===
/** Whole chains, built and then run: the builder and `allReact` together. */
module Scenarios {
  import opened Wrappers
  import opened Actions
  import opened Documents
  import opened Reactions
  import opened Queries
  import opened Builder

  /** `reaction(s).set("role", "button")` with the condition true gives
      every matched element `role="button"` and leaves the rest alone. */
  lemma SetRoleWhenTrue(selector: string, doc: Document, resolve: Resolver)
    ensures Build([ReactionCall(selector), SetCall("role", "button")]).Some?
    ensures var d := AllReact(Build([ReactionCall(selector), SetCall("role", "button")]).value,
                              true, doc, resolve);
            forall x :: x in doc ==>
              Get(d[x], "role") == if x in resolve(doc, selector) then Some("button") else Get(doc[x], "role")
  {
    var s := [SetCall("role", "button")];
    var r := Reaction(selector, [SetAction("role", "button")], [], false);
    BuildOne(selector, s);
    assert [ReactionCall(selector)] + s == [ReactionCall(selector), SetCall("role", "button")];
    SetSegment(selector);
    AllReactSingle(r, true, doc, resolve);
    var d := AllReact(Query([r]), true, doc, resolve);
    forall x | x in doc
      ensures Get(d[x], "role") == if x in resolve(doc, selector) then Some("button") else Get(doc[x], "role")
    {
      LastWriteWins(r.positive, doc[x], "role");
    }
  }

  lemma SetSegment(selector: string)
    ensures Segment(selector, [SetCall("role", "button")])
         == Reaction(selector, [SetAction("role", "button")], [], false)
  {
    var s := [SetCall("role", "button")];
    assert BeforeElse(s) == s;
    assert Edits(s) == [SetAction("role", "button")] + Edits([]);
  }

  /** `reaction(s).else().remove("hidden")` with the condition false
      removes `hidden` from every matched element. */
  lemma RemoveHiddenWhenFalse(selector: string, doc: Document, resolve: Resolver)
    ensures Build([ReactionCall(selector), ElseCall, RemoveCall("hidden")]).Some?
    ensures var d := AllReact(Build([ReactionCall(selector), ElseCall, RemoveCall("hidden")]).value,
                              false, doc, resolve);
            forall x :: x in doc && x in resolve(doc, selector) ==> "hidden" !in d[x]
  {
    var s := [ElseCall, RemoveCall("hidden")];
    var r := Reaction(selector, [], [RemoveAction("hidden")], true);
    BuildOne(selector, s);
    assert [ReactionCall(selector)] + s == [ReactionCall(selector), ElseCall, RemoveCall("hidden")];
    ElseRemoveSegment(selector);
    AllReactSingle(r, false, doc, resolve);
    var d := AllReact(Query([r]), false, doc, resolve);
    forall x | x in doc && x in resolve(doc, selector)
      ensures "hidden" !in d[x]
    {
      LastWriteWins(r.negative, doc[x], "hidden");
    }
  }

  lemma ElseRemoveSegment(selector: string)
    ensures Segment(selector, [ElseCall, RemoveCall("hidden")])
         == Reaction(selector, [], [RemoveAction("hidden")], true)
  {
    var s := [ElseCall, RemoveCall("hidden")];
    assert BeforeElse(s) == [];
    assert AfterElse(s) == [RemoveCall("hidden")];
    assert Edits([RemoveCall("hidden")]) == [RemoveAction("hidden")] + Edits([]);
  }
}

=== FILE: watch.dfy ===
/** The decision inside the `watch` callback: one batch of mutation records
    leads to at most one `allReact`. Creating the observer and subscribing
    it are host plumbing and are not modelled. */
module Watch {
  import opened Wrappers
  import opened Documents
  import opened Queries

  /** The `type` of a DOM mutation record. */
  datatype MutationType = Attributes | CharacterData | ChildList

  /** A mutation record: its type and, for attribute changes, the name of
      the attribute (`None` stands for the host's `null`). */
  datatype MutationRecord = MutationRecord(kind: MutationType, attributeName: Option<string>)

  /** A record the callback reacts to: an attribute change of the watched
      attribute. */
  predicate Relevant(m: MutationRecord, name: string) {
    m.kind == Attributes && m.attributeName == Some(name)
  }

  /** The callback: scan the batch, and on the first relevant record run
      `allReact` once (evaluating the condition on the current document)
      and stop. It runs exactly once when some record is relevant and not
      at all otherwise. */
  method Callback(q: Query, condition: Document -> bool, records: seq<MutationRecord>, name: string,
                  doc: Document, resolve: Resolver)
    returns (d: Document, evaluations: nat)
    ensures evaluations <= 1
    ensures evaluations == 1 <==> exists i :: 0 <= i < |records| && Relevant(records[i], name)
    ensures evaluations == 1 ==> d == AllReact(q, condition(doc), doc, resolve)
    ensures evaluations == 0 ==> d == doc
  {
    d, evaluations := doc, 0;
    var i := 0;
    while i < |records|
      invariant 0 <= i <= |records|
      invariant forall k :: 0 <= k < i ==> !Relevant(records[k], name)
      invariant evaluations == 0 && d == doc
    {
      var mutation := records[i];
      if mutation.kind == Attributes && mutation.attributeName == Some(name) {
        d := AllReact(q, condition(d), d, resolve);
        evaluations := evaluations + 1;
        break;
      }
      i := i + 1;
    }
  }
}

=== FILE: wrappers.dfy ===
/** Optional values, used for the host's `null` (an absent attribute, an
    unmatched selector) and for a builder chain that throws. */
module Wrappers {

  datatype Option<+T> = None | Some(value: T)
}
